=== FILE: README.md ===
# Work-hours tracker: a Dafny model of its timesheet logic

The program is a single-user console tool, `worktracker.c`. It records each day's
arrival, lunch start, lunch end and departure. It computes the minutes worked
against a fixed daily requirement of 7 h 48 min (468 minutes). It keeps two files:
a history of completed days, and a scratch record of the day in progress.
The scratch record lets an interrupted day be resumed.

This project models the pure logic inside that plumbing:

- **Time arithmetic** (`time_arith.dfy`, `delta.dfy`):
  - `time_to_minutes` and `minutes_to_time`. C's truncating `/` and `%` are
    written out, because Dafny's operators are Euclidean.
  - The signed `+HH:MM` rendering of `print_time_diff`, including `%02d`.
- **The day record** (`workday.dfy`):
  - the `WorkDay` and `DayState` types;
  - the worked/excess computation shared by `save_completed_day`,
    `add_past_day` and `modify_entry`;
  - the projected end time of `calculate_end_time`.
- **Dates** (`dates.dfy`): `strcmp` order on date keys, the `%10s` read, and the
  date-format check.
- **The history** (`records.dfy`): an ordered `seq<WorkDay>` with:
  - the replace-then-insert-sorted step of `add_past_day`;
  - the delete and the in-place edit of `modify_entry`;
  - the excess total of `show_history`.
- **The files** (`storage.dfy`): a `Store` holding the history and an optional
  scratch record. `load_temp_day` becomes a date-equality check that deletes a
  stale record.
- **The entry dialogue** (`entry.dfy`): the state machine of `enter_day_data`,
  `New → Started → LunchStart → LunchEnd → Completed`.
  - Each prompt's answer is an `Option<Clock>`. `None` is a failed `"%d:%d"`
    read. Running out of answers is end of input.
  - "Today" is a parameter.
- **Operations** (`past_day.dfy`, `modify.dfy`, `history.dfy`): `add_past_day`,
  `modify_entry` and `show_history` as functions from a `Store` and the user's
  answers to the new `Store` and an outcome.
- **Worked examples** (`scenarios.dfy`).

All integers are unbounded Dafny `int`s.

## Model

| member | source | states |
|---|---|---|
| TimeArith.ToMinutes | worktracker.c:76-78 | a clock with hour >= 0 and minute in 0..59 gives a non-negative count whose quotient and remainder by 60 are that hour and minute; `TimeArith.ClockRoundTrip` states the exact inverse |
| TimeArith.FromMinutes | worktracker.c:80-83 | the hours and minutes recombine to the minute count; both parts carry its sign, and the minute part is below 60 in magnitude (C truncation) |
| TimeArith.ClockRoundTrip | worktracker.c:76-83 | minutes_to_time inverts time_to_minutes exactly on the canonical clock times, e.g. whenever hour >= 0 and 0 <= minute < 60 |
| Delta.DeltaParts | worktracker.c:85-93 | the sign is negative exactly for a negative delta; the hours and minutes (under 60) of the magnitude recombine to the delta |
| Delta.Pad2 | worktracker.c:89 | `%02d` of a value below 100 is exactly two digits; from 10 on there is no leading zero, so 100 and more print all their digits unpadded; `Delta.ParseDecimalOfPad2` states that they read back to the value |
| Delta.FormatDelta | worktracker.c:85-93 | the rendering starts with '+' exactly when minutes >= 0 and '-' otherwise, and has ':' before the last two digits |
| Delta.FormatDeltaRoundTrip | worktracker.c:85-93 | reading the rendered "+HH:MM"/"-HH:MM" back yields the delta: sign and magnitude are both preserved |
| Delta.FormatDeltaExamples | worktracker.c:85-93 | 30 renders "+00:30", -90 "-01:30", 0 "+00:00", 12 "+00:12", -48 "-00:48" |
| Delta.FormatDeltaWideExamples | worktracker.c:85-93 | deltas of 100 hours or more print every hour digit: 6000 renders "+100:00", -6125 "-102:05" |
| WorkDays.SetField | worktracker.c:226-271 | a successful read writes the hour and minute of one time and leaves every other field alone |
| WorkDays.WithTotals | worktracker.c:679-689 | worked minutes are the morning plus the afternoon stretch, excess is worked minus 468, and date, state and times are unchanged |
| WorkDays.Complete | worktracker.c:136-150 | completing sets state Completed and worked = (end − start) − lunch, excess = worked − 468; date and all four times are unchanged |
| WorkDays.ProjectedEnd | worktracker.c:178-186 | the projected end is start + 468 + lunch duration, in minutes |
| WorkDays.ExcessIsDistanceFromProjection | worktracker.c:136-186 | the excess equals the departure minus the projected end time, in minutes |
| WorkDays.ExcessZeroIffOnProjection | worktracker.c:136-186 | the excess is 0 exactly when the departure is at the projected minute, in particular when it equals the projection |
| WorkDays.WorkedWithOrderedTimes | worktracker.c:143-145 | with the four times in order, worked minutes lie between 0 and the span from arrival to departure |
| Dates.Less | worktracker.c:412 | `strcmp(a, b) < 0`; it is a strict total order decided at the first differing character (`Dates.LessIrreflexive`, `Dates.LessAsymmetric`, `Dates.LessTransitive`, `Dates.LessTotal`, `Dates.LessAtFirstDifference`) |
| Dates.LessIrreflexive | worktracker.c:412 | no date key sorts before itself under strcmp |
| Dates.LessAsymmetric | worktracker.c:412 | two keys never sort before each other |
| Dates.LessTransitive | worktracker.c:412 | strcmp order on keys is transitive |
| Dates.LessTotal | worktracker.c:412 | of two different keys one sorts before the other |
| Dates.LessAtFirstDifference | worktracker.c:412 | keys agreeing up to position k and differing there are ordered by the character at k |
| Dates.ReadDate | worktracker.c:293 | `%10s` keeps exactly the first ten characters of a longer typed word, and all of a word of at most ten |
| Dates.IsValidDate | worktracker.c:300-304 | ten characters with '-' at positions 4 and 7; `Dates.ReadDateValid` states which typed words pass, and `Storage.Valid` requires it of every stored date |
| Dates.ReadDateValid | worktracker.c:292-304 | a typed word passes the date check exactly when it has at least ten characters with '-' at positions 4 and 7; what passes is its first ten |
| Records.SortedHasUniqueDates | worktracker.c:394-428 | a history in ascending date order has no date twice |
| Records.Without | worktracker.c:394-403 | the copy holds no record with the new day's date and is no longer than the original |
| Records.WithoutContents | worktracker.c:394-403 | the copy keeps exactly the records whose date differs from the new day's |
| Records.WithoutKeepsSorted | worktracker.c:394-403 | dropping the records of one date keeps an ascending history ascending |
| Records.FirstGreater | worktracker.c:409-416 | the insertion index is the first whose date sorts after the new date, or the end when none does |
| Records.InsertSorted | worktracker.c:384-428 | the new history has one record more than those kept |
| Records.InsertSortedAt | worktracker.c:409-428 | whatever the order of the kept records, the new day sits at the first index whose date sorts after it, with the kept records before and after it unchanged |
| Records.InsertSortedContents | worktracker.c:384-428 | the new history consists of the kept records plus the new day, as a multiset |
| Records.InsertSortedDateOnce | worktracker.c:394-428 | after the insert the new day is stored and is the only record with its date |
| Records.InsertSortedKeepsOthers | worktracker.c:394-428 | all other records survive the insert in their original relative order |
| Records.InsertSortedKeepsSorted | worktracker.c:409-428 | the insert keeps an ascending history ascending |
| Records.RemoveAt | worktracker.c:654-657 | deleting at i yields count − 1 records: those before i unchanged, those after shifted down by one |
| Records.RemoveAtProperties | worktracker.c:654-657 | the delete removes exactly the record at i (as a multiset) and keeps an ascending history ascending |
| Records.ReplaceKeepsSorted | worktracker.c:678-694 | rewriting a record in place with its date unchanged keeps the history ascending |
| Records.TotalExcess | worktracker.c:806 | the running sum of the stored excesses; `Records.TotalConcat`, `Records.TotalRemoveAt`, `Records.TotalReplaceAt` and `Records.TotalInsertSorted` state how it moves under each change |
| Records.TotalConcat | worktracker.c:806 | the excess total of two stretches of history is the sum of their totals |
| Records.TotalSplitAt | worktracker.c:806 | the total is the total before a record, plus its excess, plus the total after it |
| Records.TotalRemoveAt | worktracker.c:806 | deleting a record takes exactly its excess out of the total |
| Records.TotalReplaceAt | worktracker.c:806 | editing a record swaps its old excess for its new one in the total |
| Records.TotalInsertSorted | worktracker.c:806 | after the sorted insert the total is that of the kept records plus the new day's excess |
| Storage.LoadScratch | worktracker.c:95-113 | a scratch record is resumed exactly when it is dated today; otherwise it is deleted and reported absent |
| Storage.LoadScratchIdempotent | worktracker.c:104-112 | loading twice is loading once; the history is untouched and the files stay valid |
| Entry.Run | worktracker.c:221-284 | the prompt loop from the day's current state; `Entry.RunProgress`, `Entry.RunKeepsRecorded`, `Entry.RunSavesScratch`, `Entry.RunKeepsValid` and `Entry.RunCompletesFromLunchEnd` state its behaviour, including that the appended day's worked minutes are morning plus afternoon of its stored times |
| Entry.EnterDayData | worktracker.c:193-284 | enter_day_data: load or start today's record, then run the prompts; `Entry.EnterDayDataStartsOrResumes` and `Entry.EnterDayDataKeepsValid` state its behaviour |
| Entry.Advance | worktracker.c:224-262 | an answered step before departure sets only that step's time and moves the state on by exactly one |
| Entry.RunFailedRead | worktracker.c:224-231 | a failed read asks once and changes neither the state nor the files |
| Entry.RunCompletesFromLunchEnd | worktracker.c:268-281 | from LunchEnd one more successful read completes the day with its date and first three times kept and the answer as departure; worked minutes are (lunch start − arrival) + (departure − lunch end) and excess is worked − 468; it is appended to the history and the scratch file removed |
| Entry.RunProgress | worktracker.c:136-284 | the dialogue asks min(reads + 1, steps missing) prompts; it completes iff the successful reads cover every missing step, and the completed day's totals are those computed from its four times; else the state advanced once per read and the history is unchanged |
| Entry.RunKeepsRecorded | worktracker.c:196-266 | on resume the recorded steps are skipped and keep their times; each answered time lands in its step's field; the date is kept |
| Entry.RunSavesScratch | worktracker.c:233-262 | after a failure that follows at least one answered step, the scratch file holds the state reached, with the same date and times |
| Entry.RunMeetsProjection | worktracker.c:252-281 | leaving at the end time shown after lunch completes the day with excess 0 |
| Entry.EnterDayDataStartsOrResumes | worktracker.c:196-219 | the day is dated today; a scratch record dated today is resumed, any other is discarded for a blank New day |
| Entry.RunKeepsValid | worktracker.c:223-281 | the dialogue only ever appends completed days carrying the day's well-formed date, and never leaves a completed day in the scratch slot |
| Entry.EnterDayDataKeepsValid | worktracker.c:193-284 | with today in `%Y-%m-%d` form, enter_day_data keeps the files valid: completed, well-dated days in the history and an unfinished day in the scratch slot |
| Entry.EnterDayDataKeepsSorted | worktracker.c:152-156 | the plain append keeps the history ascending when every stored date sorts before today |
| Entry.EnterDayDataCanDuplicateToday | worktracker.c:152-156 | a history already holding today's date gets that date twice when today is completed |
| PastDay.PastRecord | worktracker.c:369-382 | the back-filled record has the date and the four times typed, state Completed, and worked/excess computed from the times |
| PastDay.AddPastDay | worktracker.c:286-454 | the day is saved iff a date was read, it passes the format check, an existing entry is confirmed with y/Y, and all four times parse; any other outcome leaves the files unchanged |
| PastDay.AddPastDayKeepsHistory | worktracker.c:384-433 | the history stays ascending, valid and duplicate-free; the new date is stored once; other records keep their order; the total moves by the new excess less any replaced one |
| Modify.SelectIndex | worktracker.c:522-528 | an ID selects an entry exactly when it lies in 1..count, and then selects index ID − 1 |
| Modify.EditTimes | worktracker.c:559-689 | an edit succeeds iff its times parse; it changes only the chosen time (or all four for choice 5), keeps date and state, and recomputes the totals |
| Modify.ModifyEntry | worktracker.c:456-716 | a valid ID (1..count) with choice 6 deletes entry ID − 1 exactly when y/Y confirms, otherwise keeps it; with choice 1–5 and parsed times it replaces entry ID − 1 by the edited record with recomputed totals; an ID outside 1..count (other than 0) is rejected; nothing else changes the history |
| Modify.ModifyEntryKeepsHistory | worktracker.c:646-694 | modify keeps the history ascending and valid; a delete drops one record and its excess from the total; an edit swaps the old excess for the new one |
| History.ShowHistory | worktracker.c:773-864 | the listing shows the stored history, and a total is printed exactly when at least one completed day exists; a scratch record dated today is kept and is the in-progress row, any other is deleted and no such row appears |
| History.ShowHistoryExcludesInProgress | worktracker.c:773-861 | the total is the sum of stored excesses whatever the scratch slot holds; the in-progress row appears iff the scratch record is dated today |
| Scenarios.NewDayScenario | worktracker.c:193-284 | arrival 09:00 and lunch 12:00–12:30 project 17:18; leaving then gives 468 worked and excess 0, leaving at 17:30 gives 480 and "+00:12" |
| Scenarios.PastDayScenario | worktracker.c:286-454 | 2024-01-10 with 08:00, 12:00–13:00, 16:00 is stored with 420 worked and "-00:48"; re-adding it with overwrite declined changes nothing |
| Scenarios.InsertThreeInOrder | worktracker.c:409-428 | three days stored with the middle one last end up in date order |
| Scenarios.InsertOrderScenario | worktracker.c:409-428 | storing 2024-05-01, 2024-05-03, then 2024-05-02 yields them in calendar order |
| Scenarios.InsertIntoUnsortedScenario | worktracker.c:409-428 | in a history holding 2024-05-03 then 2024-05-01, a past day dated 2024-05-02 is inserted at the front |

## Notes

- Arrival 09:00, lunch 12:00–12:30 and departure 17:18 give 180 + 288 = 468
  worked minutes (worktracker.c:143-148). That departure is exactly the
  projected end time, so the excess is 0; a departure at 17:30 gives 480
  minutes and "+00:12". `Scenarios.NewDayScenario` states both.
- `save_completed_day` appends to the history without the sort and dedupe of
  `add_past_day` (worktracker.c:152-156). The history stays ordered only while
  today sorts after every stored date (`Entry.EnterDayDataKeepsSorted`). If a
  past-day entry for today's own date exists, that date is stored twice
  (`Entry.EnterDayDataCanDuplicateToday`). The model keeps the append as written.
- `calculate_end_time` writes the projection into the in-memory departure field.
  It does this after the scratch copy has been saved (worktracker.c:261-265). The
  model's `Session.day` carries the projection, and the scratch copy does not.

## Left out

- File I/O and the binary record layout (`fopen`/`fread`/`fwrite`, `remove`): the
  files are the abstract `Store`. Short reads, corrupt records and enum values
  outside 0–4 are not modelled.
- Write failures ("Unable to save data"): every write is taken to succeed.
- The `SIGINT` handler and `is_editing` (worktracker.c:127-134): asynchronous
  signals are outside a functional model. `Entry.RunSavesScratch` states what the
  scratch file holds between steps. A record the handler saves mid-prompt is
  not modelled.
- `scanf` parsing and `clear_input_buffer`: each answer is supplied already read.
  A `"%d:%d"` read that stores the hour and then fails on the colon leaves a
  partial hour in memory in C. The model treats a failed read as no change.
  That value is never persisted, because the function returns at once.
- `get_current_date`, `init_paths`, `getenv`, `getpwuid`, `mkdir`: "today" is a
  parameter, and paths are not modelled.
- `show_current_status`, the text of the in-progress row of `show_history`
  (whether it appears is modelled), all `printf` tables and banners, and the
  menu loop of `main`: these are display only. The projection they print is
  `WorkDays.ProjectedEnd`.
- "Cancel current day" and "Reset data" in `main` and `reset_data`: these are
  file deletions outside the timesheet logic.
- `malloc`/`realloc` capacity handling: replaced by sequences.
- Strings are taken to contain no NUL character, so `strcmp` and `strlen` see
  the whole string.
- TimeArith.ToMinutes: computes over unbounded integers; 32-bit overflow of
  `hour * 60 + min` (worktracker.c:77) for out-of-range typed values is not
  modelled, nor is overflow of the other `int` sums built from it: the worked
  minutes (worktracker.c:143-145), the projected end (worktracker.c:184), and
  the worked and excess figures of `add_past_day` and `modify_entry`.
- Records.TotalExcess: sums over unbounded integers; overflow of the C `int`
  accumulator is not modelled.
- Delta.DeltaParts: `abs(INT_MIN)`, which is undefined in C, has no counterpart.
- Dates.ReadDate: dates are sequences of characters, while `char date[11]`,
  `%10s` and `strlen` count bytes. A word with a multi-byte character, such
  as `2024-01-é` (nine characters, ten bytes in UTF-8), passes the C check but
  not `Dates.IsValidDate`; the model agrees with C on single-byte text only.

=== FILE: dates.dfy ===
/** Date keys: their comparison with strcmp and the format check of
    add_past_day (worktracker.c). */
module Dates {

  /** `strcmp(a, b) < 0`: `a` sorts strictly before `b`, character by
      character, a proper prefix first. */
  predicate Less(a: string, b: string)
  {
    if |a| == 0 then |b| > 0
    else if |b| == 0 then false
    else if a[0] != b[0] then a[0] < b[0]
    else Less(a[1..], b[1..])
  }

  lemma {:induction false} LessIrreflexive(a: string)
    ensures !Less(a, a)
  {
    if |a| > 0 {
      LessIrreflexive(a[1..]);
    }
  }

  lemma {:induction false} LessAsymmetric(a: string, b: string)
    requires Less(a, b)
    ensures !Less(b, a)
  {
    if |a| > 0 && a[0] == b[0] {
      LessAsymmetric(a[1..], b[1..]);
    }
  }

  lemma {:induction false} LessTransitive(a: string, b: string, c: string)
    requires Less(a, b) && Less(b, c)
    ensures Less(a, c)
  {
    if |a| > 0 && a[0] == b[0] && b[0] == c[0] {
      LessTransitive(a[1..], b[1..], c[1..]);
    }
  }

  /** Any two different keys are ordered one way or the other. */
  lemma {:induction false} LessTotal(a: string, b: string)
    requires a != b
    ensures Less(a, b) || Less(b, a)
  {
    if |a| > 0 && |b| > 0 && a[0] == b[0] {
      assert a == [a[0]] + a[1..] && b == [b[0]] + b[1..];
      LessTotal(a[1..], b[1..]);
    }
  }

  /** strcmp decides at the first differing character: keys that agree
      up to position `k` and differ there are ordered by that character. */
  lemma {:induction false} LessAtFirstDifference(a: string, b: string, k: nat)
    requires k < |a| && k < |b|
    requires a[..k] == b[..k] && a[k] != b[k]
    ensures Less(a, b) <==> a[k] < b[k]
  {
    if k > 0 {
      assert a[0] == a[..k][0] == b[..k][0] == b[0];
      assert a[1..][..k - 1] == a[..k][1..] == b[..k][1..] == b[1..][..k - 1];
      LessAtFirstDifference(a[1..], b[1..], k - 1);
    }
  }

  /** The text `scanf("%10s")` stores for one whitespace-free token: exactly
      its first ten characters, or all of it when shorter (the rest of the
      line is discarded). */
  function ReadDate(token: string): (date: string)
    ensures |date| <= 10
    ensures date <= token
    ensures |token| <= 10 ==> date == token
    ensures |token| >= 10 ==> date == token[..10]
  {
    if |token| <= 10 then token else token[..10]
  }

  /** The basic check of add_past_day: ten characters with '-' at positions
      4 and 7. Digits are not checked. */
  predicate IsValidDate(date: string)
  {
    |date| == 10 && date[4] == '-' && date[7] == '-'
  }

  /** A token passes the date check exactly when it has at least ten
      characters and dashes at positions 4 and 7; anything after the tenth
      character is dropped. */
  lemma ReadDateValid(token: string)
    ensures IsValidDate(ReadDate(token)) <==> |token| >= 10 && token[4] == '-' && token[7] == '-'
    ensures IsValidDate(ReadDate(token)) ==> ReadDate(token) == token[..10]
  {
  }
}

=== FILE: delta.dfy ===
/** The signed "+HH:MM" rendering of a minute difference (worktracker.c: print_time_diff). */
module Delta {
  import opened Wrappers

  function Abs(x: int): (a: nat)
    ensures a == x || a == -x
  {
    if x < 0 then -x else x
  }

  /** The pieces print_time_diff prints: a sign, then the hours and minutes of
      the magnitude. */
  datatype Parts = Parts(negative: bool, hours: nat, minutes: nat)

  /** The sign is '-' exactly for a negative difference; hours and minutes of
      the magnitude recombine to the difference. */
  function DeltaParts(m: int): (p: Parts)
    ensures p.negative <==> m < 0
    ensures p.minutes < 60
    ensures p.hours * 60 + p.minutes == Abs(m)
    ensures (if p.negative then -(p.hours * 60 + p.minutes) else p.hours * 60 + p.minutes) == m
  {
    Parts(m < 0, Abs(m) / 60, Abs(m) % 60)
  }

  predicate IsDigit(c: char)
  {
    '0' <= c <= '9'
  }

  function DigitChar(d: nat): (c: char)
    requires d < 10
    ensures IsDigit(c) && DigitValue(c) == d
  {
    "0123456789"[d]
  }

  function DigitValue(c: char): nat
    requires IsDigit(c)
  {
    (c as int) - ('0' as int)
  }

  predicate AllDigits(s: string)
  {
    forall i :: 0 <= i < |s| ==> IsDigit(s[i])
  }

  /** `%d` of a non-negative number: its decimal digits, no leading zero. */
  function Decimal(n: nat): (s: string)
    ensures |s| >= 1 && AllDigits(s)
    ensures n < 10 ==> |s| == 1
    ensures 10 <= n < 100 ==> |s| == 2
    ensures n >= 1 ==> s[0] != '0'
  {
    if n < 10 then [DigitChar(n)] else Decimal(n / 10) + [DigitChar(n % 10)]
  }

  /** `%02d` of a non-negative number: at least two digits, zero padded. */
  function Pad2(n: nat): (s: string)
    ensures |s| >= 2 && AllDigits(s)
    ensures n < 100 ==> |s| == 2
    ensures n >= 10 ==> s[0] != '0'
  {
    if n < 10 then ['0', DigitChar(n)] else Decimal(n)
  }

  /** The value of a non-empty string of decimal digits; None otherwise. */
  function ParseDecimal(s: string): Option<nat>
  {
    if |s| == 0 || !IsDigit(s[|s| - 1]) then None
    else if |s| == 1 then Some(DigitValue(s[0]))
    else match ParseDecimal(s[..|s| - 1])
      case None => None
      case Some(v) => Some(v * 10 + DigitValue(s[|s| - 1]))
  }

  lemma {:induction false} ParseDecimalOfDecimal(n: nat)
    ensures ParseDecimal(Decimal(n)) == Some(n)
  {
    if n >= 10 {
      var s := Decimal(n);
      assert s[..|s| - 1] == Decimal(n / 10);
      ParseDecimalOfDecimal(n / 10);
    }
  }

  lemma ParseDecimalOfPad2(n: nat)
    ensures ParseDecimal(Pad2(n)) == Some(n)
  {
    if n < 10 {
      assert Pad2(n)[..1] == "0";
    } else {
      ParseDecimalOfDecimal(n);
    }
  }

  /** print_time_diff: '+' or '-', then `%02d:%02d` of the magnitude's hours
      and minutes. */
  function FormatDelta(m: int): (s: string)
    ensures |s| >= 6 && s[|s| - 3] == ':'
    ensures s[0] == '+' <==> m >= 0
    ensures s[0] == '-' <==> m < 0
  {
    var p := DeltaParts(m);
    [if p.negative then '-' else '+'] + Pad2(p.hours) + ":" + Pad2(p.minutes)
  }

  /** Reads a "+H..H:MM" or "-H..H:MM" rendering back into minutes. */
  function ParseDelta(s: string): Option<int>
  {
    if |s| < 6 || (s[0] != '+' && s[0] != '-') || s[|s| - 3] != ':' then None
    else match (ParseDecimal(s[1..|s| - 3]), ParseDecimal(s[|s| - 2..]))
      case (Some(h), Some(mm)) =>
        var magnitude: int := h * 60 + mm;
        if mm >= 60 then None
        else if s[0] == '-' then Some(-magnitude)
        else Some(magnitude)
      case _ => None
  }

  /** The rendering loses nothing: sign and magnitude read back to the
      difference that was printed. */
  lemma FormatDeltaRoundTrip(m: int)
    ensures ParseDelta(FormatDelta(m)) == Some(m)
  {
    var p := DeltaParts(m);
    var s := FormatDelta(m);
    var hs := Pad2(p.hours);
    var ms := Pad2(p.minutes);
    assert s == [s[0]] + hs + ":" + ms;
    assert |ms| == 2;
    assert s[1..|s| - 3] == hs;
    assert s[|s| - 2..] == ms;
    ParseDecimalOfPad2(p.hours);
    ParseDecimalOfPad2(p.minutes);
  }

  /** Sample renderings of print_time_diff. */
  lemma FormatDeltaExamples()
    ensures FormatDelta(30) == "+00:30"
    ensures FormatDelta(-90) == "-01:30"
    ensures FormatDelta(0) == "+00:00"
    ensures FormatDelta(12) == "+00:12"
    ensures FormatDelta(-48) == "-00:48"
  {
  }

  /** From 100 hours on, `%02d` prints every digit and no padding. */
  lemma FormatDeltaWideExamples()
    ensures FormatDelta(6000) == "+100:00"
    ensures FormatDelta(-6125) == "-102:05"
  {
    assert Decimal(10) == "10";
    assert Decimal(100) == "100";
    assert Decimal(102) == "102";
    assert DeltaParts(6000) == Parts(false, 100, 0);
    assert DeltaParts(-6125) == Parts(true, 102, 5);
    assert Pad2(100) == "100" && Pad2(0) == "00";
    assert Pad2(102) == "102" && Pad2(5) == "05";
  }
}

=== FILE: entry.dfy ===
/** The day-entry dialogue of enter_day_data (worktracker.c): one prompt per
    remaining time, the scratch record saved after every answered step, and
    the completed day appended to the history. */
module Entry {
  import opened Wrappers
  import opened TimeArith
  import opened WorkDays
  import opened Records
  import opened Dates
  import opened Storage

  /** How a dialogue ended: the day was completed, a read failed, or the
      loaded record had no step left to ask for. */
  datatype Outcome = Finished | Aborted | Idle

  /** The files afterwards, the in-memory current day, the end time shown to
      the user if one was, and the number of prompts asked. */
  datatype Session = Session(store: Store, day: WorkDay, projection: Option<Clock>, prompts: nat, outcome: Outcome)

  function Min(a: int, b: int): int
  {
    if a <= b then a else b
  }

  /** One answered step before departure: the time asked for at this state
      is set and the state moves one step on; nothing else changes. */
  function Advance(day: WorkDay, c: Clock): (r: WorkDay)
    requires Rank(day.state) < 3
    ensures Rank(r.state) == Rank(day.state) + 1
    ensures Get(r, FieldAt(Rank(day.state))) == c
    ensures forall g :: g != FieldAt(Rank(day.state)) ==> Get(r, g) == Get(day, g)
    ensures r.date == day.date
    ensures r.workedMinutes == day.workedMinutes && r.excessMinutes == day.excessMinutes
  {
    SetField(day, FieldAt(Rank(day.state)), c).(state := Next(day.state))
  }

  /** The prompts of enter_day_data from the day's current state on. Each
      answer is None when `scanf("%d:%d")` did not read two numbers; running
      out of answers is end of input, which fails the same way. */
  function Run(st: Store, day: WorkDay, answers: seq<Option<Clock>>, projection: Option<Clock>): (r: Session)
    decreases 4 - Rank(day.state)
  {
    if day.state == Completed then
      Session(st, day, projection, 0, Idle)
    else if |answers| == 0 || answers[0].None? then
      Session(st, day, projection, 1, Aborted)
    else if day.state == LunchEnd then
      var done := Complete(SetField(day, Departure, answers[0].value));
      Session(Store(st.history + [done], None), done, projection, 1, Finished)
    else
      var next := Advance(day, answers[0].value);
      var saved := st.(scratch := Some(next));
      var rest :=
        if day.state == LunchStart then
          var p := ProjectedEnd(next);
          // calculate_end_time writes the projection into the in-memory
          // departure, after the scratch copy was saved
          Run(saved, next.(end := p), answers[1..], Some(p))
        else
          Run(saved, next, answers[1..], projection);
      rest.(prompts := rest.prompts + 1)
  }

  /** enter_day_data: resume today's scratch record if there is one, else
      start a blank day dated today, then run the remaining prompts. */
  function EnterDayData(st: Store, today: string, answers: seq<Option<Clock>>): Session
  {
    var loaded := LoadScratch(st, today);
    var day := if loaded.day.Some? then loaded.day.value else Blank(today);
    Run(loaded.store, day, answers, None)
  }

  /** A failed read asks once and changes nothing: not the state, not the files. */
  lemma RunFailedRead(st: Store, day: WorkDay, answers: seq<Option<Clock>>, projection: Option<Clock>)
    requires day.state != Completed
    requires LeadingSome(answers) == 0
    ensures Run(st, day, answers, projection) == Session(st, day, projection, 1, Aborted)
  {
  }

  /** From LunchEnd one more answered prompt completes the day: its totals
      are computed, it is appended to the history, and the scratch file is
      removed. */
  lemma RunCompletesFromLunchEnd(st: Store, day: WorkDay, c: Clock, more: seq<Option<Clock>>, projection: Option<Clock>)
    requires day.state == LunchEnd
    ensures var r := Run(st, day, [Some(c)] + more, projection);
      && r.outcome == Finished
      && r.day.state == Completed
      && r.day.date == day.date
      && r.day.start == day.start && r.day.lunchStart == day.lunchStart && r.day.lunchEnd == day.lunchEnd
      && r.day.end == c
      && r.day.workedMinutes == (ToMinutes(day.lunchStart) - ToMinutes(day.start)) + (ToMinutes(c) - ToMinutes(day.lunchEnd))
      && r.day.excessMinutes == r.day.workedMinutes - RequiredMinutes
      && r.store == Store(st.history + [r.day], None)
  {
  }

  /** How far a dialogue gets is decided by the number of answers read
      successfully before the first failure: it asks one prompt per step
      still missing, stopping after the first failed read; it completes the
      day exactly when the answers cover every missing step; otherwise the
      state has moved on once per answer and the history is untouched. */
  lemma {:induction false} RunProgress(st: Store, day: WorkDay, answers: seq<Option<Clock>>, projection: Option<Clock>)
    requires day.state != Completed
    ensures var r := Run(st, day, answers, projection);
      var s, n := Rank(day.state), LeadingSome(answers);
      && r.prompts == Min(n + 1, 4 - s)
      && (r.outcome == Finished <==> s + n >= 4)
      && (r.outcome == Finished ==> r.store == Store(st.history + [r.day], None) && r.day.state == Completed)
      && (r.outcome == Finished ==> r.day == WithTotals(r.day))
      && (r.outcome != Finished ==> r.outcome == Aborted && r.store.history == st.history && Rank(r.day.state) == s + n)
    decreases 4 - Rank(day.state)
  {
    if |answers| > 0 && answers[0].Some? && Rank(day.state) < 3 {
      var next := Advance(day, answers[0].value);
      var p := ProjectedEnd(next);
      var day' := if day.state == LunchStart then next.(end := p) else next;
      var projection' := if day.state == LunchStart then Some(p) else projection;
      assert LeadingSome(answers) == 1 + LeadingSome(answers[1..]);
      RunProgress(st.(scratch := Some(next)), day', answers[1..], projection');
    }
  }

  /** Resuming skips the steps already recorded: the times entered before
      keep their values, the date is kept, and every time answered in this
      dialogue lands in the field of its step. */
  lemma {:induction false} RunKeepsRecorded(st: Store, day: WorkDay, answers: seq<Option<Clock>>, projection: Option<Clock>)
    requires day.state != Completed
    ensures var r := Run(st, day, answers, projection);
      && r.day.date == day.date
      && (forall f :: FieldRank(f) < Rank(day.state) ==> Get(r.day, f) == Get(day, f))
      && (forall k :: 0 <= k < LeadingSome(answers) && Rank(day.state) + k < 4 ==> Get(r.day, FieldAt(Rank(day.state) + k)) == answers[k].value)
    decreases 4 - Rank(day.state)
  {
    var s := Rank(day.state);
    var r := Run(st, day, answers, projection);
    if |answers| > 0 && answers[0].Some? && s < 3 {
      var next := Advance(day, answers[0].value);
      var p := ProjectedEnd(next);
      var day' := if day.state == LunchStart then next.(end := p) else next;
      var projection' := if day.state == LunchStart then Some(p) else projection;
      var tail := answers[1..];
      RunKeepsRecorded(st.(scratch := Some(next)), day', tail, projection');
      assert r.day == Run(st.(scratch := Some(next)), day', tail, projection').day;
      assert Get(day', FieldAt(s)) == answers[0].value;
      forall f | FieldRank(f) < s + 1
        ensures Get(r.day, f) == (if FieldRank(f) < s then Get(day, f) else answers[0].value)
      {
        if FieldRank(f) < s {
          assert f != FieldAt(s);
        } else {
          assert f == FieldAt(s);
        }
      }
      forall k | 0 < k < LeadingSome(answers) && s + k < 4
        ensures Get(r.day, FieldAt(s + k)) == answers[k].value
      {
        assert answers[k] == tail[k - 1];
        assert LeadingSome(answers) == 1 + LeadingSome(tail);
      }
    }
  }

  /** Between steps the scratch file holds the last state reached: after a
      failure with at least one step answered it holds a record in the
      state the dialogue stopped at, with the same date and recorded times. */
  lemma {:induction false} RunSavesScratch(st: Store, day: WorkDay, answers: seq<Option<Clock>>, projection: Option<Clock>)
    requires day.state != Completed
    ensures var r := Run(st, day, answers, projection);
      r.outcome == Aborted && LeadingSome(answers) > 0 ==>
        && r.store.scratch.Some?
        && r.store.scratch.value.state == r.day.state
        && r.store.scratch.value.date == r.day.date
        && (forall f :: FieldRank(f) < Rank(r.day.state) ==> Get(r.store.scratch.value, f) == Get(r.day, f))
    decreases 4 - Rank(day.state)
  {
    var s := Rank(day.state);
    if |answers| > 0 && answers[0].Some? && s < 3 {
      var next := Advance(day, answers[0].value);
      var p := ProjectedEnd(next);
      var day' := if day.state == LunchStart then next.(end := p) else next;
      var projection' := if day.state == LunchStart then Some(p) else projection;
      var saved := st.(scratch := Some(next));
      var tail := answers[1..];
      var r' := Run(saved, day', tail, projection');
      if LeadingSome(tail) > 0 {
        RunSavesScratch(saved, day', tail, projection');
      } else {
        RunFailedRead(saved, day', tail, projection');
        forall f | FieldRank(f) < Rank(day'.state)
          ensures Get(next, f) == Get(day', f)
        {
        }
      }
    }
  }

  /** Leaving at the end time shown after lunch completes the day with an
      excess of exactly zero. */
  lemma RunMeetsProjection(st: Store, day: WorkDay, back: Clock, departure: Clock)
    requires day.state == LunchStart
    requires departure == ProjectedEnd(Advance(day, back))
    ensures var r := Run(st, day, [Some(back), Some(departure)], None);
      && r.outcome == Finished
      && r.projection == Some(departure)
      && r.day.excessMinutes == 0
  {
  }

  /** A new day is dated today; a scratch record is resumed only when it is
      dated today. */
  lemma EnterDayDataStartsOrResumes(st: Store, today: string, answers: seq<Option<Clock>>)
    ensures var r := EnterDayData(st, today, answers);
      && r.day.date == today
      && (st.scratch.Some? && st.scratch.value.date == today ==>
            r == Run(st, st.scratch.value, answers, None))
      && (st.scratch.None? || st.scratch.value.date != today ==>
            r == Run(st.(scratch := None), Blank(today), answers, None))
  {
    var loaded := LoadScratch(st, today);
    var day := if loaded.day.Some? then loaded.day.value else Blank(today);
    if day.state != Completed {
      RunKeepsRecorded(loaded.store, day, answers, None);
    }
  }

  /** The dialogue keeps the files valid: only completed days enter the
      history, the scratch slot never holds a completed day, and every day
      written carries the (well-formed) date of the day being entered. */
  lemma {:induction false} RunKeepsValid(st: Store, day: WorkDay, answers: seq<Option<Clock>>, projection: Option<Clock>)
    requires Valid(st)
    requires day.state != Completed
    requires IsValidDate(day.date)
    ensures Valid(Run(st, day, answers, projection).store)
    decreases 4 - Rank(day.state)
  {
    var s := Rank(day.state);
    if |answers| > 0 && answers[0].Some? {
      if s < 3 {
        var next := Advance(day, answers[0].value);
        var p := ProjectedEnd(next);
        var day' := if day.state == LunchStart then next.(end := p) else next;
        var projection' := if day.state == LunchStart then Some(p) else projection;
        var saved := st.(scratch := Some(next));
        if day'.state != Completed {
          RunKeepsValid(saved, day', answers[1..], projection');
        }
      } else {
        var r := Run(st, day, answers, projection);
        assert r.store.history == st.history + [r.day];
        assert forall i :: 0 <= i < |r.store.history| - 1 ==> r.store.history[i] == st.history[i];
      }
    }
  }

  /** `today` is what `strftime("%Y-%m-%d")` writes, so it passes the date
      check; the files stay valid. */
  lemma EnterDayDataKeepsValid(st: Store, today: string, answers: seq<Option<Clock>>)
    requires Valid(st)
    requires IsValidDate(today)
    ensures Valid(EnterDayData(st, today, answers).store)
  {
    var loaded := LoadScratch(st, today);
    var day := if loaded.day.Some? then loaded.day.value else Blank(today);
    RunKeepsValid(loaded.store, day, answers, None);
  }

  /** save_completed_day appends without sorting; the history stays in date
      order when every stored date sorts before today. */
  lemma EnterDayDataKeepsSorted(st: Store, today: string, answers: seq<Option<Clock>>)
    requires Sorted(st.history)
    requires forall i :: 0 <= i < |st.history| ==> Less(st.history[i].date, today)
    ensures Sorted(EnterDayData(st, today, answers).store.history)
  {
    var loaded := LoadScratch(st, today);
    var day := if loaded.day.Some? then loaded.day.value else Blank(today);
    var r := EnterDayData(st, today, answers);
    EnterDayDataStartsOrResumes(st, today, answers);
    if day.state != Completed {
      RunProgress(loaded.store, day, answers, None);
      if r.outcome == Finished {
        var h := r.store.history;
        assert h == st.history + [r.day];
        forall i, j | 0 <= i < j < |h|
          ensures Less(h[i].date, h[j].date)
        {
          if j == |h| - 1 {
            assert h[i] == st.history[i];
          } else {
            assert h[i] == st.history[i] && h[j] == st.history[j];
          }
        }
      }
    }
  }

  /** The append is not a sorted insert: a day already stored under today's
      date (entered as a past day) is not replaced, and completing today
      stores that date twice. */
  lemma EnterDayDataCanDuplicateToday(existing: WorkDay, today: string, c: Clock)
    requires existing.date == today
    ensures var st := Store([existing], None);
      var r := EnterDayData(st, today, [Some(c), Some(c), Some(c), Some(c)]);
      && r.outcome == Finished
      && |r.store.history| == 2
      && r.store.history[0].date == r.store.history[1].date == today
  {
    var st := Store([existing], None);
    var answers := [Some(c), Some(c), Some(c), Some(c)];
    assert LeadingSome(answers[3..]) == 1;
    assert LeadingSome(answers[2..]) == 2;
    assert LeadingSome(answers[1..]) == 3;
    assert LeadingSome(answers) == 4;
    RunProgress(st, Blank(today), answers, None);
    EnterDayDataStartsOrResumes(st, today, answers);
  }
}

=== FILE: history.dfy ===
/** The history view and its month total (worktracker.c: show_history). */
module History {
  import opened Wrappers
  import opened WorkDays
  import opened Records
  import opened Storage

  /** The rows listed, the total printed under them (only when there is at
      least one completed day), and the day in progress shown last. */
  datatype HistoryView = HistoryView(rows: seq<WorkDay>, total: Option<int>, inProgress: Option<WorkDay>)

  datatype Shown = Shown(view: HistoryView, store: Store)

  /** show_history. It loads the scratch record first: one dated today is
      kept and shown as the in-progress row; any other is deleted. */
  function ShowHistory(st: Store, today: string): (r: Shown)
    ensures r.view.rows == st.history
    ensures r.view.total.Some? <==> |st.history| > 0
    ensures r.store.history == st.history
    ensures st.scratch.Some? && st.scratch.value.date == today ==>
      r.store == st && r.view.inProgress == st.scratch
    ensures st.scratch.None? || st.scratch.value.date != today ==>
      r.store == st.(scratch := None) && r.view.inProgress.None?
  {
    var loaded := LoadScratch(st, today);
    var total := if |st.history| > 0 then Some(TotalExcess(st.history)) else None;
    Shown(HistoryView(st.history, total, loaded.day), loaded.store)
  }

  /** The total counts completed days only: whatever sits in the scratch
      slot, the printed total is the sum of the stored excesses, and the
      in-progress row appears exactly for a scratch record dated today. */
  lemma ShowHistoryExcludesInProgress(st: Store, today: string, other: Option<WorkDay>)
    ensures ShowHistory(st, today).view.total == ShowHistory(st.(scratch := other), today).view.total
    ensures |st.history| > 0 ==> ShowHistory(st, today).view.total == Some(TotalExcess(st.history))
    ensures ShowHistory(st, today).view.inProgress.Some? <==> st.scratch.Some? && st.scratch.value.date == today
  {
  }
}

=== FILE: modify.dfy ===
/** Editing and deleting a stored day (worktracker.c: modify_entry). */
module Modify {
  import opened Wrappers
  import opened TimeArith
  import opened WorkDays
  import opened Records
  import opened Storage

  /** Where modify_entry stopped. `Kept` is a delete the user did not
      confirm; `Deleted` and `Updated` carry the 0-based index acted on. */
  datatype ModifyOutcome =
    | NoEntries | BadInput | Cancelled | BadId | BadChoice | BadTime | Kept
    | Deleted(index: nat) | Updated(index: nat)

  datatype Modified = Modified(store: Store, outcome: ModifyOutcome)

  /** The ID check: only 1 to `count` selects an entry, the one at `id - 1`. */
  function SelectIndex(id: int, count: nat): (r: Option<nat>)
    ensures r.Some? <==> 1 <= id <= count
    ensures r.Some? ==> r.value + 1 == id && r.value < count
  {
    if id < 1 || id > count then None else Some(id - 1)
  }

  /** Menu choices 1 to 4 re-enter one time, 5 re-enters all four; the
      totals are then recomputed. None when a time fails to parse. */
  function EditTimes(d: WorkDay, choice: int, answers: seq<Option<Clock>>): (r: Option<WorkDay>)
    requires 1 <= choice <= 5
    ensures r.Some? <==> LeadingSome(answers) >= (if choice == 5 then 4 else 1)
    ensures r.Some? ==> r.value.date == d.date && r.value.state == d.state
    ensures r.Some? ==> r.value.excessMinutes == r.value.workedMinutes - RequiredMinutes
    ensures r.Some? ==> r.value == WithTotals(r.value)
    ensures r.Some? && choice <= 4 ==>
      && Get(r.value, FieldAt(choice - 1)) == answers[0].value
      && forall g :: g != FieldAt(choice - 1) ==> Get(r.value, g) == Get(d, g)
    ensures r.Some? && choice == 5 ==> forall f :: Get(r.value, f) == answers[FieldRank(f)].value
  {
    if choice <= 4 then
      if LeadingSome(answers) < 1 then None
      else Some(WithTotals(SetField(d, FieldAt(choice - 1), answers[0].value)))
    else
      if LeadingSome(answers) < 4 then None
      else Some(WithTotals(d.(start := answers[0].value, lunchStart := answers[1].value,
                              lunchEnd := answers[2].value, end := answers[3].value)))
  }

  /** modify_entry. `id` and `choice` are the two numbers read (None when
      `scanf("%d")` fails), `answers` the time prompts of the chosen edit,
      `confirm` the character read at the delete question. */
  function ModifyEntry(st: Store, id: Option<int>, choice: Option<int>, answers: seq<Option<Clock>>, confirm: char): (r: Modified)
    ensures r.store.scratch == st.scratch
    ensures !r.outcome.Deleted? && !r.outcome.Updated? ==> r.store == st
    ensures r.outcome == NoEntries <==> |st.history| == 0
    ensures r.outcome.Deleted? ==>
      && id == Some(r.outcome.index + 1) && r.outcome.index < |st.history|
      && choice == Some(6) && Confirms(confirm)
      && r.store.history == RemoveAt(st.history, r.outcome.index)
    ensures r.outcome.Updated? ==>
      && id == Some(r.outcome.index + 1) && r.outcome.index < |st.history|
      && choice.Some? && 1 <= choice.value <= 5
      && EditTimes(st.history[r.outcome.index], choice.value, answers).Some?
      && r.store.history == st.history[r.outcome.index := EditTimes(st.history[r.outcome.index], choice.value, answers).value]
    ensures r.outcome.Updated? ==>
      && |r.store.history| == |st.history|
      && (forall k :: 0 <= k < |st.history| && k != r.outcome.index ==> r.store.history[k] == st.history[k])
      && r.store.history[r.outcome.index].date == st.history[r.outcome.index].date
      && r.store.history[r.outcome.index].state == st.history[r.outcome.index].state
    ensures r.outcome == BadId <==> |st.history| > 0 && id.Some? && id.value != 0 && (id.value < 1 || id.value > |st.history|)
    // A valid ID with a confirmed delete always deletes that entry, and with
    // an edit whose times parse always updates it.
    ensures id.Some? && 1 <= id.value <= |st.history| && choice == Some(6) && Confirms(confirm) ==>
      r.outcome == Deleted(id.value - 1)
    ensures id.Some? && 1 <= id.value <= |st.history| && choice == Some(6) && !Confirms(confirm) ==>
      r.outcome == Kept
    ensures (id.Some? && 1 <= id.value <= |st.history| && choice.Some? && 1 <= choice.value <= 5
             && EditTimes(st.history[id.value - 1], choice.value, answers).Some?) ==>
      r.outcome == Updated(id.value - 1)
  {
    var h := st.history;
    if |h| == 0 then Modified(st, NoEntries)
    else if id.None? then Modified(st, BadInput)
    else if id.value == 0 then Modified(st, Cancelled)
    else match SelectIndex(id.value, |h|)
      case None => Modified(st, BadId)
      case Some(i) =>
        if choice.None? then Modified(st, BadInput)
        else if choice.value == 0 then Modified(st, Cancelled)
        else if choice.value == 6 then
          if Confirms(confirm) then Modified(st.(history := RemoveAt(h, i)), Deleted(i))
          else Modified(st, Kept)
        else if choice.value < 1 || choice.value > 5 then Modified(st, BadChoice)
        else match EditTimes(h[i], choice.value, answers)
          case None => Modified(st, BadTime)
          case Some(d) => Modified(st.(history := h[i := d]), Updated(i))
  }

  /** Whatever the menu path, the history stays ascending and valid; a
      delete removes exactly one record and its excess from the total, and
      an edit swaps the record's old excess for its recomputed one. */
  lemma ModifyEntryKeepsHistory(st: Store, id: Option<int>, choice: Option<int>, answers: seq<Option<Clock>>, confirm: char)
    ensures var r := ModifyEntry(st, id, choice, answers, confirm);
      && (Sorted(st.history) ==> Sorted(r.store.history))
      && (Valid(st) ==> Valid(r.store))
    ensures var r := ModifyEntry(st, id, choice, answers, confirm);
      r.outcome.Deleted? ==>
        && |r.store.history| == |st.history| - 1
        && multiset(r.store.history) + multiset{st.history[r.outcome.index]} == multiset(st.history)
        && TotalExcess(r.store.history) == TotalExcess(st.history) - st.history[r.outcome.index].excessMinutes
    ensures var r := ModifyEntry(st, id, choice, answers, confirm);
      r.outcome.Updated? ==>
        TotalExcess(r.store.history) ==
          TotalExcess(st.history) - st.history[r.outcome.index].excessMinutes + r.store.history[r.outcome.index].excessMinutes
  {
    var r := ModifyEntry(st, id, choice, answers, confirm);
    var h := st.history;
    match r.outcome
    case Deleted(i) =>
      RemoveAtProperties(h, i);
      TotalRemoveAt(h, i);
    case Updated(i) =>
      assert r.store.history == h[i := r.store.history[i]];
      TotalReplaceAt(h, i, r.store.history[i]);
      if Sorted(h) {
        ReplaceKeepsSorted(h, i, r.store.history[i]);
      }
    case _ =>
  }
}

=== FILE: past_day.dfy ===
/** Back-filling a past day (worktracker.c: add_past_day). */
module PastDay {
  import opened Wrappers
  import opened TimeArith
  import opened WorkDays
  import opened Dates
  import opened Records
  import opened Storage

  /** Where add_past_day stopped: no date could be read, the date failed the
      format check, the user kept the existing entry, a time failed to
      parse, or the day was saved. */
  datatype AddOutcome = NoInput | BadDate | KeptExisting | BadTime | Saved

  datatype Added = Added(store: Store, outcome: AddOutcome)

  /** The record built from a date and four answered times, with its totals
      and the Completed state. */
  function PastRecord(date: string, answers: seq<Option<Clock>>): (d: WorkDay)
    requires LeadingSome(answers) >= 4
    ensures d.date == date && d.state == Completed
    ensures d.start == answers[0].value && d.lunchStart == answers[1].value
    ensures d.lunchEnd == answers[2].value && d.end == answers[3].value
    ensures d.excessMinutes == d.workedMinutes - RequiredMinutes
    ensures d.workedMinutes == (ToMinutes(d.lunchStart) - ToMinutes(d.start)) + (ToMinutes(d.end) - ToMinutes(d.lunchEnd))
  {
    var filled := Blank(date).(start := answers[0].value, lunchStart := answers[1].value,
                               lunchEnd := answers[2].value, end := answers[3].value);
    Complete(filled)
  }

  /** add_past_day. `token` is the word `scanf("%10s")` reads (None at end
      of input), `confirm` the character read at the overwrite question
      (asked only when the date is already stored), `answers` the four
      time prompts in order. */
  function AddPastDay(st: Store, token: Option<string>, confirm: char, answers: seq<Option<Clock>>): (r: Added)
    ensures r.store.scratch == st.scratch
    ensures r.outcome != Saved ==> r.store == st
    ensures r.outcome == Saved <==>
      && token.Some?
      && IsValidDate(ReadDate(token.value))
      && (HasDate(st.history, ReadDate(token.value)) ==> Confirms(confirm))
      && LeadingSome(answers) >= 4
    ensures r.outcome == BadDate <==> token.Some? && !IsValidDate(ReadDate(token.value))
    ensures r.outcome == Saved ==>
      r.store.history == InsertSorted(st.history, PastRecord(ReadDate(token.value), answers))
  {
    if token.None? then Added(st, NoInput)
    else
      var date := ReadDate(token.value);
      if !IsValidDate(date) then Added(st, BadDate)
      else if HasDate(st.history, date) && !Confirms(confirm) then Added(st, KeptExisting)
      else if LeadingSome(answers) < 4 then Added(st, BadTime)
      else Added(st.(history := InsertSorted(st.history, PastRecord(date, answers))), Saved)
  }

  /** A saved past day keeps the history ascending and free of duplicate
      dates, holds its date exactly once, keeps every other record in order,
      and moves the total by the new excess less that of any record it
      replaced. The files stay valid whatever the outcome. */
  lemma AddPastDayKeepsHistory(st: Store, token: Option<string>, confirm: char, answers: seq<Option<Clock>>)
    ensures var r := AddPastDay(st, token, confirm, answers);
      && (Valid(st) ==> Valid(r.store))
      && (Sorted(st.history) ==> Sorted(r.store.history) && UniqueDates(r.store.history))
    ensures var r := AddPastDay(st, token, confirm, answers);
      r.outcome == Saved ==>
        var d := PastRecord(ReadDate(token.value), answers);
        && d in r.store.history
        && Without(r.store.history, d.date) == Without(st.history, d.date)
        && TotalExcess(r.store.history) == TotalExcess(Without(st.history, d.date)) + d.excessMinutes
        && (!HasDate(st.history, d.date) ==> TotalExcess(r.store.history) == TotalExcess(st.history) + d.excessMinutes)
  {
    var r := AddPastDay(st, token, confirm, answers);
    if r.outcome == Saved {
      var d := PastRecord(ReadDate(token.value), answers);
      var h := r.store.history;
      InsertSortedDateOnce(st.history, d);
      InsertSortedContents(st.history, d);
      WithoutContents(st.history, d.date);
      InsertSortedKeepsOthers(st.history, d);
      TotalInsertSorted(st.history, d);
      if !HasDate(st.history, d.date) {
        WithoutAbsent(st.history, d.date);
      }
      if Sorted(st.history) {
        InsertSortedKeepsSorted(st.history, d);
        SortedHasUniqueDates(h);
      }
      if Valid(st) {
        assert IsValidDate(d.date);
        forall i | 0 <= i < |h|
          ensures h[i].state == Completed && IsValidDate(h[i].date)
        {
          assert h[i] in multiset(Without(st.history, d.date)) + multiset{d};
          if h[i] != d {
            assert h[i] in Without(st.history, d.date);
            assert h[i] in st.history;
          }
        }
      }
    } else if Sorted(st.history) {
      SortedHasUniqueDates(st.history);
    }
  }
}

=== FILE: records.dfy ===
/** The completed-day history as an ordered sequence of records: the sorted
    insert of add_past_day, the delete and in-place edit of modify_entry, and
    the excess total of show_history (worktracker.c). */
module Records {
  import opened Dates
  import opened WorkDays

  /** Dates strictly ascending in strcmp order, hence no date twice. */
  predicate Sorted(s: seq<WorkDay>)
  {
    forall i, j :: 0 <= i < j < |s| ==> Less(s[i].date, s[j].date)
  }

  predicate UniqueDates(s: seq<WorkDay>)
  {
    forall i, j :: 0 <= i < j < |s| ==> s[i].date != s[j].date
  }

  lemma SortedHasUniqueDates(s: seq<WorkDay>)
    requires Sorted(s)
    ensures UniqueDates(s)
  {
    forall i, j | 0 <= i < j < |s|
      ensures s[i].date != s[j].date
    {
      LessIrreflexive(s[i].date);
    }
  }

  predicate HasDate(s: seq<WorkDay>, date: string)
  {
    exists i :: 0 <= i < |s| && s[i].date == date
  }

  /** The records whose date differs from `date`, in their original order. */
  function Without(s: seq<WorkDay>, date: string): (r: seq<WorkDay>)
    ensures |r| <= |s|
    ensures forall i :: 0 <= i < |r| ==> r[i].date != date
  {
    if |s| == 0 then []
    else (if s[0].date == date then [] else [s[0]]) + Without(s[1..], date)
  }

  /** `Without` keeps exactly the records of other dates. */
  lemma {:induction false} WithoutContents(s: seq<WorkDay>, date: string)
    ensures forall e :: e in Without(s, date) <==> e in s && e.date != date
  {
    if |s| > 0 {
      WithoutContents(s[1..], date);
      assert s == [s[0]] + s[1..];
    }
  }

  lemma {:induction false} WithoutConcat(a: seq<WorkDay>, b: seq<WorkDay>, date: string)
    ensures Without(a + b, date) == Without(a, date) + Without(b, date)
  {
    if |a| == 0 {
      assert a + b == b;
    } else {
      assert (a + b)[0] == a[0];
      assert (a + b)[1..] == a[1..] + b;
      WithoutConcat(a[1..], b, date);
    }
  }

  lemma {:induction false} WithoutAbsent(s: seq<WorkDay>, date: string)
    requires forall i :: 0 <= i < |s| ==> s[i].date != date
    ensures Without(s, date) == s
  {
    if |s| > 0 {
      WithoutAbsent(s[1..], date);
    }
  }

  lemma {:induction false} WithoutKeepsSorted(s: seq<WorkDay>, date: string)
    requires Sorted(s)
    ensures Sorted(Without(s, date))
  {
    if |s| > 0 {
      var tail := Without(s[1..], date);
      WithoutKeepsSorted(s[1..], date);
      if s[0].date != date {
        var r := Without(s, date);
        assert r == [s[0]] + tail;
        WithoutContents(s[1..], date);
        forall j | 0 < j < |r|
          ensures Less(r[0].date, r[j].date)
        {
          assert r[j] in tail;
          assert r[j] in s[1..];
        }
      }
    }
  }

  /** The insertion point add_past_day finds: the first index whose date
      sorts after `date`, or the end when there is none. */
  function FirstGreater(s: seq<WorkDay>, date: string): (pos: nat)
    ensures pos <= |s|
    ensures forall k :: 0 <= k < pos ==> !Less(date, s[k].date)
    ensures pos < |s| ==> Less(date, s[pos].date)
  {
    if |s| == 0 || Less(date, s[0].date) then 0
    else 1 + FirstGreater(s[1..], date)
  }

  /** add_past_day's store update: drop every record with the new day's date,
      then insert the day at the first index whose date sorts after it. */
  function InsertSorted(s: seq<WorkDay>, d: WorkDay): (r: seq<WorkDay>)
    ensures |r| == |Without(s, d.date)| + 1
  {
    var rest := Without(s, d.date);
    var pos := FirstGreater(rest, d.date);
    assert rest == rest[..pos] + rest[pos..];
    rest[..pos] + [d] + rest[pos..]
  }

  /** The insert adds the new day to the records it keeps, and nothing else. */
  lemma InsertSortedContents(s: seq<WorkDay>, d: WorkDay)
    ensures multiset(InsertSorted(s, d)) == multiset(Without(s, d.date)) + multiset{d}
  {
    var rest := Without(s, d.date);
    var pos := FirstGreater(rest, d.date);
    var front, back := rest[..pos], rest[pos..];
    assert rest == front + back;
    assert InsertSorted(s, d) == front + [d] + back;
    calc {
      multiset(front + [d] + back);
      multiset(front + [d]) + multiset(back);
      multiset(front) + multiset{d} + multiset(back);
    }
  }

  /** Where the new day lands, whatever order the kept records are in: at
      the first index whose date sorts after it, with the kept records before
      and after it in their original order. */
  lemma InsertSortedAt(s: seq<WorkDay>, d: WorkDay)
    ensures var rest := Without(s, d.date);
      var pos := FirstGreater(rest, d.date);
      && InsertSorted(s, d)[pos] == d
      && InsertSorted(s, d)[..pos] == rest[..pos]
      && InsertSorted(s, d)[pos + 1..] == rest[pos..]
  {
  }

  /** After the insert the new day is there, and it is the only record with
      its date. */
  lemma InsertSortedDateOnce(s: seq<WorkDay>, d: WorkDay)
    ensures d in InsertSorted(s, d)
    ensures forall i :: 0 <= i < |InsertSorted(s, d)| && InsertSorted(s, d)[i].date == d.date ==> InsertSorted(s, d)[i] == d
    ensures forall i, j :: 0 <= i < j < |InsertSorted(s, d)| ==> InsertSorted(s, d)[i].date != d.date || InsertSorted(s, d)[j].date != d.date
  {
  }

  /** Taking a date out of a sequence where only `d` carries it leaves the rest. */
  lemma WithoutAround(front: seq<WorkDay>, d: WorkDay, back: seq<WorkDay>)
    requires forall k :: 0 <= k < |front| ==> front[k].date != d.date
    requires forall k :: 0 <= k < |back| ==> back[k].date != d.date
    ensures Without(front + [d] + back, d.date) == front + back
  {
    var withD := front + [d];
    WithoutConcat(front, [d], d.date);
    WithoutAbsent(front, d.date);
    assert Without([d], d.date) == [] by {
      assert [d][1..] == [];
    }
    assert Without(withD, d.date) == front;
    WithoutConcat(withD, back, d.date);
    WithoutAbsent(back, d.date);
  }

  /** Every other record survives the insert, in its original relative order. */
  lemma InsertSortedKeepsOthers(s: seq<WorkDay>, d: WorkDay)
    ensures Without(InsertSorted(s, d), d.date) == Without(s, d.date)
  {
    var rest := Without(s, d.date);
    var pos := FirstGreater(rest, d.date);
    var front, back := rest[..pos], rest[pos..];
    assert front + back == rest;
    WithoutAround(front, d, back);
  }

  /** Placing a day between the records that sort before it and those that
      sort after it keeps a sorted sequence sorted. */
  lemma SortedInsertAt(f: seq<WorkDay>, pos: nat, d: WorkDay)
    requires Sorted(f) && pos <= |f|
    requires forall k :: 0 <= k < pos ==> Less(f[k].date, d.date)
    requires forall k :: pos <= k < |f| ==> Less(d.date, f[k].date)
    ensures Sorted(f[..pos] + [d] + f[pos..])
  {
  }

  /** The sorted insert keeps an ascending history ascending. */
  lemma InsertSortedKeepsSorted(s: seq<WorkDay>, d: WorkDay)
    requires Sorted(s)
    ensures Sorted(InsertSorted(s, d))
  {
    var rest := Without(s, d.date);
    var pos := FirstGreater(rest, d.date);
    WithoutKeepsSorted(s, d.date);
    forall k | 0 <= k < pos
      ensures Less(rest[k].date, d.date)
    {
      LessTotal(rest[k].date, d.date);
    }
    forall k | pos < k < |rest|
      ensures Less(d.date, rest[k].date)
    {
      LessTransitive(d.date, rest[pos].date, rest[k].date);
    }
    SortedInsertAt(rest, pos, d);
  }

  /** The history with the record at `i` taken out and the rest shifted down. */
  function RemoveAt(s: seq<WorkDay>, i: nat): (r: seq<WorkDay>)
    requires i < |s|
    ensures |r| == |s| - 1
    ensures forall k :: 0 <= k < i ==> r[k] == s[k]
    ensures forall k :: i <= k < |r| ==> r[k] == s[k + 1]
  {
    s[..i] + s[i + 1..]
  }

  /** Deleting takes out exactly the record at `i`, keeps the order of the
      rest, and keeps a sorted history sorted. */
  lemma RemoveAtProperties(s: seq<WorkDay>, i: nat)
    requires i < |s|
    ensures multiset(RemoveAt(s, i)) + multiset{s[i]} == multiset(s)
    ensures Sorted(s) ==> Sorted(RemoveAt(s, i))
  {
    assert s == s[..i] + [s[i]] + s[i + 1..];
    var r := RemoveAt(s, i);
    if Sorted(s) {
      forall a, b | 0 <= a < b < |r|
        ensures Less(r[a].date, r[b].date)
      {
        var a' := if a < i then a else a + 1;
        var b' := if b < i then b else b + 1;
        assert r[a] == s[a'] && r[b] == s[b'];
      }
    }
  }

  /** Editing a record in place without touching its date keeps the
      history sorted. */
  lemma ReplaceKeepsSorted(s: seq<WorkDay>, i: nat, d: WorkDay)
    requires i < |s| && d.date == s[i].date
    requires Sorted(s)
    ensures Sorted(s[i := d])
  {
  }

  /** show_history's running total: the sum of excess minutes of all records. */
  function TotalExcess(s: seq<WorkDay>): int
  {
    if |s| == 0 then 0 else s[0].excessMinutes + TotalExcess(s[1..])
  }

  lemma {:induction false} TotalConcat(a: seq<WorkDay>, b: seq<WorkDay>)
    ensures TotalExcess(a + b) == TotalExcess(a) + TotalExcess(b)
  {
    if |a| == 0 {
      assert a + b == b;
    } else {
      assert (a + b)[0] == a[0];
      assert (a + b)[1..] == a[1..] + b;
      TotalConcat(a[1..], b);
    }
  }

  /** The total splits around any record. */
  lemma TotalSplitAt(s: seq<WorkDay>, i: nat)
    requires i < |s|
    ensures TotalExcess(s) == TotalExcess(s[..i]) + s[i].excessMinutes + TotalExcess(s[i + 1..])
  {
    var front, back := s[..i], s[i + 1..];
    var upTo := front + [s[i]];
    assert s == upTo + back;
    assert TotalExcess([s[i]]) == s[i].excessMinutes;
    TotalConcat(upTo, back);
    TotalConcat(front, [s[i]]);
  }

  /** Deleting a record takes its excess out of the total. */
  lemma TotalRemoveAt(s: seq<WorkDay>, i: nat)
    requires i < |s|
    ensures TotalExcess(RemoveAt(s, i)) == TotalExcess(s) - s[i].excessMinutes
  {
    TotalSplitAt(s, i);
    TotalConcat(s[..i], s[i + 1..]);
  }

  /** Editing a record swaps its old excess for its new one in the total. */
  lemma TotalReplaceAt(s: seq<WorkDay>, i: nat, d: WorkDay)
    requires i < |s|
    ensures TotalExcess(s[i := d]) == TotalExcess(s) - s[i].excessMinutes + d.excessMinutes
  {
    var t := s[i := d];
    assert t[..i] == s[..i] && t[i + 1..] == s[i + 1..];
    TotalSplitAt(s, i);
    TotalSplitAt(t, i);
  }

  /** The sorted insert adds the new day's excess to the total of the
      records it keeps. */
  lemma TotalInsertSorted(s: seq<WorkDay>, d: WorkDay)
    ensures TotalExcess(InsertSorted(s, d)) == TotalExcess(Without(s, d.date)) + d.excessMinutes
  {
    var rest := Without(s, d.date);
    var pos := FirstGreater(rest, d.date);
    var front, back := rest[..pos], rest[pos..];
    assert rest == front + back;
    assert InsertSorted(s, d) == front + [d] + back;
    TotalConcat(front + [d], back);
    TotalConcat(front, [d]);
    TotalConcat(front, back);
  }
}

=== FILE: scenarios.dfy ===
/** Worked examples of whole operations. */
module Scenarios {
  import opened Wrappers
  import opened TimeArith
  import opened WorkDays
  import opened Records
  import opened Storage
  import opened Entry
  import opened PastDay
  import opened Delta
  import opened Dates

  /** A new day with arrival 09:00 and lunch 12:00 to 12:30 is shown the end
      time 17:18. Leaving then stores 468 minutes worked and an excess of 0;
      leaving at 17:30 stores 480 minutes and an excess of 12, shown "+00:12". */
  lemma NewDayScenario(today: string, departure: Clock)
    requires departure == Clock(17, 18) || departure == Clock(17, 30)
    ensures var answers := [Some(Clock(9, 0)), Some(Clock(12, 0)), Some(Clock(12, 30)), Some(departure)];
      var r := EnterDayData(Store([], None), today, answers);
      && r.outcome == Finished
      && r.projection == Some(Clock(17, 18))
      && r.store.history == [r.day]
      && r.store.scratch == None
      && (departure == Clock(17, 18) ==> r.day.workedMinutes == 468 && r.day.excessMinutes == 0)
      && (departure == Clock(17, 30) ==> r.day.workedMinutes == 480 && r.day.excessMinutes == 12)
      && (departure == Clock(17, 30) ==> FormatDelta(r.day.excessMinutes) == "+00:12")
  {
    var answers := [Some(Clock(9, 0)), Some(Clock(12, 0)), Some(Clock(12, 30)), Some(departure)];
    var d0 := Blank(today);
    var d1 := Advance(d0, Clock(9, 0));
    var d2 := Advance(d1, Clock(12, 0));
    var d3 := Advance(d2, Clock(12, 30));
    var p := ProjectedEnd(d3);
    assert answers[1..] == [Some(Clock(12, 0)), Some(Clock(12, 30)), Some(departure)];
    assert answers[1..][1..] == [Some(Clock(12, 30)), Some(departure)];
    assert answers[1..][1..][1..] == [Some(departure)];
    assert FieldAt(0) == Arrival && FieldAt(1) == LunchOut && FieldAt(2) == LunchBack;
    assert d3.start == Clock(9, 0) && d3.lunchStart == Clock(12, 0) && d3.lunchEnd == Clock(12, 30);
    assert ToMinutes(p) == 1038;
    ClockRoundTrip(Clock(17, 18));
    assert p == Clock(17, 18);
    var last := SetField(d3.(end := p), Departure, departure);
    var done := Complete(last);
    var r3 := Run(Store([], Some(d3)), d3.(end := p), answers[1..][1..][1..], Some(p));
    var r2 := Run(Store([], Some(d2)), d2, answers[1..][1..], None);
    var r1 := Run(Store([], Some(d1)), d1, answers[1..], None);
    var r0 := Run(Store([], None), d0, answers, None);
    assert r3.day == done && r3.outcome == Finished && r3.projection == Some(p) && r3.store == Store([done], None);
    assert r2.day == r3.day && r2.outcome == r3.outcome && r2.projection == r3.projection && r2.store == r3.store;
    assert r1.day == r2.day && r1.outcome == r2.outcome && r1.projection == r2.projection && r1.store == r2.store;
    assert r0.day == r1.day && r0.outcome == r1.outcome && r0.projection == r1.projection && r0.store == r1.store;
    assert EnterDayData(Store([], None), today, answers) == r0;
    assert Get(last, Departure) == departure;
    assert Get(last, Arrival) == Clock(9, 0) && Get(last, LunchOut) == Clock(12, 0) && Get(last, LunchBack) == Clock(12, 30);
    FormatDeltaExamples();
  }

  /** A past day dated 2024-01-10 with 08:00, 12:00 to 13:00 and 16:00 is
      stored with 420 minutes worked and an excess of -48, shown "-00:48";
      entering the same date again and declining the overwrite leaves the
      history as it was. */
  lemma PastDayScenario(st: Store, again: seq<Option<Clock>>, c: char)
    requires st.history == []
    requires c != 'y' && c != 'Y'
    ensures var answers := [Some(Clock(8, 0)), Some(Clock(12, 0)), Some(Clock(13, 0)), Some(Clock(16, 0))];
      var r := AddPastDay(st, Some("2024-01-10"), 'n', answers);
      && r.outcome == Saved
      && |r.store.history| == 1
      && r.store.history[0].date == "2024-01-10"
      && r.store.history[0].workedMinutes == 420
      && r.store.history[0].excessMinutes == -48
      && FormatDelta(r.store.history[0].excessMinutes) == "-00:48"
      && AddPastDay(r.store, Some("2024-01-10"), c, again) == Added(r.store, KeptExisting)
  {
  }

  /** Three days stored out of order, the middle one last, end up in date
      order. */
  lemma InsertThreeInOrder(a: WorkDay, b: WorkDay, c: WorkDay)
    requires Less(a.date, b.date) && Less(b.date, c.date)
    ensures InsertSorted(InsertSorted(InsertSorted([], a), c), b) == [a, b, c]
  {
    LessTransitive(a.date, b.date, c.date);
    LessAsymmetric(a.date, b.date);
    LessAsymmetric(b.date, c.date);
    LessAsymmetric(a.date, c.date);
    LessIrreflexive(a.date);
    LessIrreflexive(b.date);
    var s1 := InsertSorted([], a);
    assert s1 == [a];
    assert Without(s1, c.date) == [a];
    assert FirstGreater([a], c.date) == 1;
    var s2 := InsertSorted(s1, c);
    assert s2 == [a, c];
    assert Without(s2, b.date) == [a, c] by {
      assert s2[1..] == [c];
    }
    assert FirstGreater([a, c], b.date) == 1 by {
      assert [a, c][1..] == [c];
    }
  }

  /** Storing 2024-05-01, then 2024-05-03, then 2024-05-02 leaves them in
      calendar order. */
  lemma InsertOrderScenario(a: WorkDay, b: WorkDay, c: WorkDay)
    requires a.date == "2024-05-01" && b.date == "2024-05-02" && c.date == "2024-05-03"
    ensures InsertSorted(InsertSorted(InsertSorted([], a), c), b) == [a, b, c]
  {
    assert a.date[..9] == b.date[..9] == c.date[..9];
    LessAtFirstDifference(a.date, b.date, 9);
    LessAtFirstDifference(b.date, c.date, 9);
    InsertThreeInOrder(a, b, c);
  }

  /** In a history the plain append left out of order (05-03 before 05-01),
      a past day dated 05-02 lands before the first record that sorts after
      it, that is at the front. */
  lemma InsertIntoUnsortedScenario(a: WorkDay, b: WorkDay, c: WorkDay)
    requires a.date == "2024-05-03" && b.date == "2024-05-01" && c.date == "2024-05-02"
    ensures InsertSorted([a, b], c) == [c, a, b]
  {
    assert a.date[..9] == c.date[..9];
    LessAtFirstDifference(c.date, a.date, 9);
    assert Without([a, b], c.date) == [a, b] by {
      assert [a, b][1..] == [b];
      assert [b][1..] == [];
    }
    assert FirstGreater([a, b], c.date) == 0;
  }
}

=== FILE: storage.dfy ===
/** The two files the program keeps: the history of completed days and the
    scratch record of the day in progress (worktracker.c: load_temp_day). */
module Storage {
  import opened Wrappers
  import opened WorkDays
  import opened Dates

  /** The contents of the history file and of the scratch file (None when
      the scratch file does not exist). */
  datatype Store = Store(history: seq<WorkDay>, scratch: Option<WorkDay>)

  predicate AllCompleted(s: seq<WorkDay>)
  {
    forall i :: 0 <= i < |s| ==> s[i].state == Completed
  }

  /** Every stored date passed the date check (or came from the clock). */
  predicate AllDated(s: seq<WorkDay>)
  {
    forall i :: 0 <= i < |s| ==> IsValidDate(s[i].date)
  }

  /** Only completed, well-dated days reach the history; the scratch slot
      holds a well-dated day that is not yet completed. */
  predicate Valid(st: Store)
  {
    && AllCompleted(st.history)
    && AllDated(st.history)
    && (st.scratch.Some? ==> st.scratch.value.state != Completed && IsValidDate(st.scratch.value.date))
  }

  /** What load_temp_day reports, and the files it leaves behind. */
  datatype Loaded = Loaded(day: Option<WorkDay>, store: Store)

  /** load_temp_day: a scratch record dated today is resumed; one dated any
      other day is deleted and reported as absent. */
  function LoadScratch(st: Store, today: string): (r: Loaded)
    ensures r.day.Some? <==> st.scratch.Some? && st.scratch.value.date == today
    ensures r.day.Some? ==> r.day == st.scratch && r.store == st
    ensures r.day.None? ==> r.store == st.(scratch := None)
  {
    match st.scratch
    case None => Loaded(None, st)
    case Some(d) => if d.date == today then Loaded(Some(d), st) else Loaded(None, st.(scratch := None))
  }

  /** Loading twice is loading once: a stale record, once deleted, stays
      absent; the history is never touched. */
  lemma LoadScratchIdempotent(st: Store, today: string)
    ensures LoadScratch(LoadScratch(st, today).store, today) == LoadScratch(st, today)
    ensures LoadScratch(st, today).store.history == st.history
    ensures Valid(st) ==> Valid(LoadScratch(st, today).store)
  {
  }
}

=== FILE: time_arith.dfy ===
/** Clock times and minute counts (worktracker.c: time_to_minutes, minutes_to_time). */
module TimeArith {

  /** The daily requirement: REQUIRED_HOURS hours and REQUIRED_MINUTES minutes. */
  const RequiredHours: int := 7
  const RequiredMins: int := 48
  const RequiredMinutes: int := RequiredHours * 60 + RequiredMins

  /** An hour/minute pair exactly as it was typed; nothing bounds either part. */
  datatype Clock = Clock(hour: int, minute: int)

  /** Minutes since midnight of a clock time. */
  function ToMinutes(c: Clock): (t: int)
    ensures c.hour >= 0 && 0 <= c.minute < 60 ==> t >= 0 && t / 60 == c.hour && t % 60 == c.minute
  {
    c.hour * 60 + c.minute
  }

  /** `t / 60` as C evaluates it on `int`: the quotient truncated toward zero. */
  function Quot60(t: int): int
  {
    if t >= 0 then t / 60 else -((-t) / 60)
  }

  /** `t % 60` as C evaluates it on `int`: the remainder takes the sign of `t`. */
  function Rem60(t: int): int
  {
    if t >= 0 then t % 60 else -((-t) % 60)
  }

  /** Splits a minute count back into hours and minutes, with C's truncating
      division: the parts always recombine to `t`, and both carry the sign of `t`. */
  function FromMinutes(t: int): (c: Clock)
    ensures ToMinutes(c) == t
    ensures -60 < c.minute < 60
    ensures t >= 0 ==> c.hour >= 0 && c.minute >= 0
    ensures t < 0 ==> c.hour <= 0 && c.minute <= 0
  {
    Clock(Quot60(t), Rem60(t))
  }

  /** A clock time that `FromMinutes` can produce: both parts of one sign and
      the minute part below 60 in magnitude. */
  predicate Canonical(c: Clock)
  {
    || (c.hour >= 0 && 0 <= c.minute < 60)
    || (c.hour <= 0 && -60 < c.minute <= 0)
  }

  /** minutes_to_time undoes time_to_minutes exactly on the canonical clock
      times: in particular whenever `hour >= 0` and `0 <= minute < 60`. */
  lemma ClockRoundTrip(c: Clock)
    ensures FromMinutes(ToMinutes(c)) == c <==> Canonical(c)
  {
  }
}

=== FILE: workday.dfy ===
/** One day's timesheet record and the figures derived from it
    (worktracker.c: WorkDay, DayState, save_completed_day, calculate_end_time). */
module WorkDays {
  import opened TimeArith

  /** The entry lifecycle, in the order of the enum's ordinals 0 to 4. */
  datatype DayState = New | Started | LunchStart | LunchEnd | Completed

  function Rank(s: DayState): nat
  {
    match s
    case New => 0
    case Started => 1
    case LunchStart => 2
    case LunchEnd => 3
    case Completed => 4
  }

  /** The state one step further on. */
  function Next(s: DayState): (t: DayState)
    requires s != Completed
    ensures Rank(t) == Rank(s) + 1
  {
    match s
    case New => Started
    case Started => LunchStart
    case LunchStart => LunchEnd
    case LunchEnd => Completed
  }

  /** The four times of a day, in the order they are entered. */
  datatype Field = Arrival | LunchOut | LunchBack | Departure

  function FieldRank(f: Field): nat
  {
    match f
    case Arrival => 0
    case LunchOut => 1
    case LunchBack => 2
    case Departure => 3
  }

  /** The field of rank `n`: the one a day in state of rank `n` waits for. */
  function FieldAt(n: nat): (f: Field)
    requires n < 4
    ensures FieldRank(f) == n
  {
    if n == 0 then Arrival else if n == 1 then LunchOut else if n == 2 then LunchBack else Departure
  }

  /** A WorkDay record. The date is the text of a `YYYY-MM-DD` key; the
      times are as entered; worked and excess minutes are derived. */
  datatype WorkDay = WorkDay(
    date: string,
    state: DayState,
    start: Clock,
    lunchStart: Clock,
    lunchEnd: Clock,
    end: Clock,
    workedMinutes: int,
    excessMinutes: int)

  function Get(d: WorkDay, f: Field): Clock
  {
    match f
    case Arrival => d.start
    case LunchOut => d.lunchStart
    case LunchBack => d.lunchEnd
    case Departure => d.end
  }

  /** Overwrites the hour and minute of one time and nothing else. */
  function SetField(d: WorkDay, f: Field, c: Clock): (r: WorkDay)
    ensures Get(r, f) == c
    ensures forall g :: g != f ==> Get(r, g) == Get(d, g)
    ensures r.date == d.date && r.state == d.state
    ensures r.workedMinutes == d.workedMinutes && r.excessMinutes == d.excessMinutes
  {
    match f
    case Arrival => d.(start := c)
    case LunchOut => d.(lunchStart := c)
    case LunchBack => d.(lunchEnd := c)
    case Departure => d.(end := c)
  }

  /** The record `(WorkDay){0}` with a date and the New state. */
  function Blank(date: string): (d: WorkDay)
    ensures d.date == date && d.state == New
  {
    WorkDay(date, New, Clock(0, 0), Clock(0, 0), Clock(0, 0), Clock(0, 0), 0, 0)
  }

  /** Same date, state and times: the record differs at most in its derived figures. */
  predicate SameEntry(a: WorkDay, b: WorkDay)
  {
    && a.date == b.date && a.state == b.state
    && a.start == b.start && a.lunchStart == b.lunchStart
    && a.lunchEnd == b.lunchEnd && a.end == b.end
  }

  /** Minutes spent at lunch. */
  function LunchMinutes(d: WorkDay): int
  {
    ToMinutes(d.lunchEnd) - ToMinutes(d.lunchStart)
  }

  /** Recomputes worked and excess minutes from the four times, as
      save_completed_day, add_past_day and modify_entry each do. */
  function WithTotals(d: WorkDay): (r: WorkDay)
    ensures SameEntry(r, d)
    ensures r.workedMinutes == (ToMinutes(d.lunchStart) - ToMinutes(d.start)) + (ToMinutes(d.end) - ToMinutes(d.lunchEnd))
    ensures r.excessMinutes == r.workedMinutes - RequiredMinutes
  {
    var morning := ToMinutes(d.lunchStart) - ToMinutes(d.start);
    var afternoon := ToMinutes(d.end) - ToMinutes(d.lunchEnd);
    var worked := morning + afternoon;
    d.(workedMinutes := worked, excessMinutes := worked - (RequiredHours * 60 + RequiredMins))
  }

  /** The figures save_completed_day stores: the totals, and the Completed state. */
  function Complete(d: WorkDay): (r: WorkDay)
    ensures r.state == Completed
    ensures r.date == d.date
    ensures forall f :: Get(r, f) == Get(d, f)
    ensures r.workedMinutes == (ToMinutes(d.end) - ToMinutes(d.start)) - LunchMinutes(d)
    ensures r.excessMinutes == r.workedMinutes - RequiredMinutes
  {
    WithTotals(d).(state := Completed)
  }

  /** calculate_end_time: the departure that makes up the requirement, lunch
      not counted. */
  function ProjectedEnd(d: WorkDay): (c: Clock)
    ensures ToMinutes(c) == ToMinutes(d.start) + RequiredMinutes + LunchMinutes(d)
  {
    var lunch := ToMinutes(d.lunchEnd) - ToMinutes(d.lunchStart);
    FromMinutes(ToMinutes(d.start) + (RequiredHours * 60 + RequiredMins) + lunch)
  }

  /** The excess is how far the departure lies past the projected end time. */
  lemma ExcessIsDistanceFromProjection(d: WorkDay)
    ensures WithTotals(d).excessMinutes == ToMinutes(d.end) - ToMinutes(ProjectedEnd(d))
    ensures Complete(d).excessMinutes == ToMinutes(d.end) - ToMinutes(ProjectedEnd(d))
  {
  }

  /** Leaving exactly at the projected time (same minute of the day) makes
      the excess zero, and nothing else does. */
  lemma ExcessZeroIffOnProjection(d: WorkDay)
    ensures Complete(d).excessMinutes == 0 <==> ToMinutes(d.end) == ToMinutes(ProjectedEnd(d))
    ensures d.end == ProjectedEnd(d) ==> Complete(d).excessMinutes == 0
  {
  }

  /** When the four times are in order the worked minutes are the two
      stretches of work, none of them negative. */
  lemma WorkedWithOrderedTimes(d: WorkDay)
    requires ToMinutes(d.start) <= ToMinutes(d.lunchStart) <= ToMinutes(d.lunchEnd) <= ToMinutes(d.end)
    ensures 0 <= Complete(d).workedMinutes <= ToMinutes(d.end) - ToMinutes(d.start)
  {
  }
}

=== FILE: wrappers.dfy ===
/** Optional values, and the answers read at the program's prompts. */
module Wrappers {

  /** A value that may be absent: a record slot that may be empty, or a
      prompt whose answer could not be read. */
  datatype Option<+T> = None | Some(value: T)

  /** The number of answers, from the front, that were read successfully.
      A dialogue that stops at its first failed read consumes exactly the
      first `LeadingSome(answers)` answers and then aborts. */
  function LeadingSome<T>(answers: seq<Option<T>>): (n: nat)
    ensures n <= |answers|
    ensures forall k :: 0 <= k < n ==> answers[k].Some?
    ensures n < |answers| ==> answers[n].None?
  {
    if |answers| == 0 || answers[0].None? then 0
    else 1 + LeadingSome(answers[1..])
  }

  /** A yes/no prompt is answered yes only by 'y' or 'Y'. */
  predicate Confirms(c: char)
  {
    c == 'y' || c == 'Y'
  }
}
